=== FILE: README.md ===
# Stopwatch with a live activity mirror — Dafny model

This project models the two pieces of pure timer logic in the stopwatch app:

- the `useTimer` hook (`src/useTimer.ts`): a stopwatch whose `play`, `pause`
  and `reset` transitions, refresh-interval tick and foreground
  reconciliation update two timestamp refs (`startTime`, `pausedTime`), the
  displayed `elapsedTimeInMs`, the `isPlaying` flag and whether the refresh
  interval is installed, and which sends `startLiveActivity`, `resume`,
  `pause` and `stopLiveActivity` to the native module. The display string
  `MM:SS.d` is derived from `elapsedTimeInMs`;
- the live activity's `ContentState` helpers
  (`ios/TimerWidget/TimerWidgetLiveActivity.swift`): the elapsed whole
  seconds, the paused-time text, the interval the running timer view counts
  from, and `isRunning`.

Every transition is a pure function of the state and an explicit clock
reading `now` (what `Date.now()` / `Date()` would return), returning the new
state and the list of commands sent. Modules:

| file | module | contents |
|---|---|---|
| `nullable.dfy` | `Nullable` | `Option`, standing for `null`/`undefined`/`nil` |
| `arith.dfy` | `Arith` | truncating division and remainder (Swift `/`, `%`, JavaScript `%`), and `Int(x.rounded())` of a real |
| `text.dfy` | `Text` | decimal text of integers, `padStart(2, '0')`, the `M:SS.d` clock text and a parser that reads it back |
| `stopwatch.dfy` | `Stopwatch` | the hook's state, commands, transitions and display |
| `stopwatch_trace.dfy` | `StopwatchTrace` | runs over sequences of inputs, checked against a reference stopwatch that adds up its running intervals; worked scenarios |
| `live_activity.dfy` | `LiveActivity` | the content-state helpers |
| `replicas.dfy` | `Replicas` | the in-app stopwatch and the live activity agree on whole seconds when they hold the same instants |

Representation choices:

- Timestamps are integer epoch milliseconds. A seconds value that crosses
  the bridge to the native module (a Double there) is a `Seconds(millis)`
  holding its exact millisecond count: the source's `x * 1000` is
  `x.millis`, and its `y / 1000` is `Seconds(y)`.
- JavaScript truthiness of the timestamp refs is written out: `Truthy(v)` is
  `v != null && v != 0`, so a timestamp of 0 behaves as in the source.
- `Math.floor(a / b)` with a positive divisor is Dafny's `/`; JavaScript's
  and Swift's `%` and Swift's integer `/` truncate toward zero and are
  `TruncRem` / `TruncDiv`.
- The refresh interval is a flag plus `Refresh`, the interval's callback.
- Both `Date.now()` calls inside one `play` read the same `now`.

Behaviour of the code worth knowing:

- `pause` takes only a timestamp.
- Reconciliation with a running activity adopts its start and then runs
  `play`. If the hook is locally paused (interval off, `pausedTime` set),
  `play` takes its resume branch and shifts the adopted start by
  `now - pausedTime`, so the start is not the activity's
  (`Stopwatch.Reconcile`).
- Reconciliation with a paused activity marks the pause at the moment of
  reconciliation but adopts the activity's start. A later `play` therefore
  resumes from the span between that start and the reconciliation, not from
  the activity's elapsed time; time the activity spent paused while the app
  was in the background is counted as running
  (`StopwatchTrace.PlayAfterPausedReconcile`).
- Reconciliation with a running activity onto a hook whose interval is off
  and that has no pause recorded sends `startLiveActivity` again, with the activity's own start
  (`StopwatchTrace.ReconcileRunningTracks`).
- Reconciliation with a paused activity does not remove the refresh
  interval. If the interval was installed, its next tick overwrites the
  adopted elapsed time with the time since the adopted start. The hook's own
  `pause` removes the interval before pausing the activity, so this needs
  the bridge's updates to arrive out of order
  (`StopwatchTrace.ForegroundAfterActivityPause`).
- Events are not checked for staleness: an `onPause` after `reset` reaches
  `pause`, which does nothing because no start is recorded.

## Model

| member | source | states |
|---|---|---|
| `Arith.TruncDiv` | ios/TimerWidget/TimerWidgetLiveActivity.swift:25-27 | the quotient rounds toward zero: for a non-negative dividend it is the largest multiple not above it, for a negative one the smallest not below it |
| `Arith.TruncRem` | ios/TimerWidget/TimerWidgetLiveActivity.swift:32-33 | dividend = quotient × divisor + remainder, with the remainder's sign following the dividend and its size below the divisor |
| `Arith.RoundHalfAway` | ios/TimerWidget/TimerWidgetLiveActivity.swift:34 | `Int(x.rounded())` lands within half a unit of its argument, ties going away from zero |
| `Arith.RoundWhole` | ios/TimerWidget/TimerWidgetLiveActivity.swift:34 | rounding a whole number gives it back |
| `Text.NatToString` | src/useTimer.ts:29 | `toString` of a natural number is a non-empty digit string, one digit exactly below 10, no leading zero |
| `Text.IntToString` | src/useTimer.ts:29 | a number's text reads back as the number; a non-negative one is non-empty digits without a leading zero; a negative one is a minus sign and the digits of its magnitude, again without a leading zero |
| `Text.Pad2` | src/useTimer.ts:29 | `padStart(2, '0')` keeps the text as a suffix and fills only zeros in front, to length 2 at least |
| `Text.NatToStringRoundTrip` | src/useTimer.ts:29 | reading the digits of `toString` back gives the number |
| `Text.PaddedRoundTrip` | src/useTimer.ts:29 | a padded number is still at least two digits that read back as it; exactly two below 100, and a longer one has no leading zero |
| `Text.ClockTextRoundTrip` | src/useTimer.ts:29 | a clock text built from a minute field, two second digits and one fraction digit parses back into those three values |
| `Stopwatch.Play` | src/useTimer.ts:31-58 | play always leaves the timer playing with the interval on and sends at most one command; while already running it sends nothing and changes only `isPlaying`; a first play starts at `now` and sends `startLiveActivity` with it; with no pause to skip, `startLiveActivity` goes out with whatever start stands and the pause field is left as it was; a resume skips the paused span so elapsed-at-pause is kept, clears the pause and sends `resume` |
| `Stopwatch.Pause` | src/useTimer.ts:60-69 | pause always stops playing and removes the interval without touching the start; when running it pauses at the given timestamp, or at `now` when the timestamp is missing or 0 (JavaScript treats 0 as absent), freezes elapsed = pause − start and sends one `pause` with both; when already paused or never started nothing else changes and nothing is sent |
| `Stopwatch.Reset` | src/useTimer.ts:71-78 | from any state: no start, no pause, elapsed 0, not playing, interval off, and exactly one `stopLiveActivity` |
| `Stopwatch.Refresh` | src/useTimer.ts:55-57 | while the interval is installed the displayed elapsed time is `now` minus the start; otherwise nothing changes; only the elapsed time ever changes |
| `Stopwatch.Reconcile` | src/useTimer.ts:100-112 | an absent `isRunning` changes nothing; a running activity lends its start and then behaves as play (the start stands unless a local pause is skipped on top of it); a paused one sets start and elapsed from the activity, the pause to `now`, not playing, sends nothing, and leaves the interval as it was |
| `Stopwatch.HandleEvent` | src/useTimer.ts:81-85 | an event sends at most one command and keeps "interval on implies a start is recorded"; `onResume` leaves the timer playing, `onPause` stopped with its start kept, pausing a running timer at the moment the event arrives; an `onPause` after a reset leaves the timer idle and sends nothing; `onReset` returns to the initial state and sends one stop |
| `Stopwatch.DisplayFields` | src/useTimer.ts:24-27 | for a non-negative elapsed time: seconds in 0..59, tenths in 0..9, and minutes·60000 + seconds·1000 + tenths·100 ≤ elapsed < that + 100 |
| `Stopwatch.Display` | src/useTimer.ts:24-29 | for a non-negative elapsed time the text is at least 7 characters and parses back to exactly the display fields, and a text longer than 7 characters does not start with `0`, so the minutes are `padStart(2, '0')` and nothing wider |
| `Stopwatch.DisplayUnderTenMinutes` | src/useTimer.ts:24-29 | under ten minutes the text is exactly seven characters: a zero, the minute digit, a colon, two second digits, a point and the tenths digit |
| `StopwatchTrace.Apply` | src/useTimer.ts:31-85 | each input sends at most one command and keeps "interval on implies a start is recorded" |
| `StopwatchTrace.Run` | src/useTimer.ts:31-85 | a run sends at most one command per input and keeps the same invariant |
| `StopwatchTrace.ApplyTracks` | src/useTimer.ts:31-85 | one play, pause, refresh, reset or activity event keeps the hook's state in step with the reference stopwatch |
| `StopwatchTrace.RunTracks` | src/useTimer.ts:31-85 | over any run of calls, ticks and activity events with non-decreasing positive clock readings, the hook's state stays in step with the reference stopwatch |
| `StopwatchTrace.PausedElapsedIsRunningTotal` | src/useTimer.ts:43-67 | from the initial state, a run ending paused displays the sum of all running intervals since the last reset; ending running, a refresh shows that sum plus the current interval; ending idle, the state is the initial one |
| `StopwatchTrace.ReconcileRunningTracks` | src/useTimer.ts:103-105 | a running snapshot with a start not in the future, and no local pause, leaves the hook in step with a reference stopwatch running since now with the time since that start banked; with the interval off it sends `startLiveActivity` with that start again |
| `StopwatchTrace.ReconcilePausedTracks` | src/useTimer.ts:106-111 | a paused snapshot with the interval off sends nothing, and leaves the hook in step with a reference stopwatch stopped at now with the activity's elapsed time exactly when that time equals now minus the activity's start |
| `StopwatchTrace.PlayAfterPausedReconcile` | src/useTimer.ts:43-57 | after a paused reconciliation the display first shows the activity's elapsed time, but a play then sends `resume` and its refresh shows (reconciliation − activity start) + time since the play, which matches the activity's elapsed time only when the two spans are equal |
| `StopwatchTrace.PauseIsIdempotent` | src/useTimer.ts:60-69 | a second pause changes nothing and sends nothing (unless the first paused at clock reading 0) |
| `StopwatchTrace.ResetShowsZero` | src/useTimer.ts:71-78 | after reset the display is `00:00.0`, a second reset is the same, and the next play is a first play |
| `StopwatchTrace.PauseAfterSixtyFiveSeconds` | src/useTimer.ts:31-78 | play, then pause 65.3 s later, shows `01:05.3` after sending start and pause; reset shows `00:00.0` |
| `StopwatchTrace.ForegroundAfterActivityPause` | src/useTimer.ts:100-112 | a hypothetical foregrounding (it needs the bridge's updates out of order) onto an activity paused at 10 s, with the interval still installed, shows `00:10.0`, not playing, sends nothing, and the still-installed interval's next tick shows the time since the adopted start |
| `LiveActivity.ElapsedSeconds` | ios/TimerWidget/TimerWidgetLiveActivity.swift:19-28 | 0 before any start; otherwise the whole seconds, toward zero, of the span from start to pause, or to `now` while running |
| `LiveActivity.PausedFields` | ios/TimerWidget/TimerWidgetLiveActivity.swift:30-34 | for non-negative elapsed seconds: minutes in 0..59 (hours dropped), seconds in 0..59, minutes·60 + seconds = elapsed mod 3600; the "milliseconds" field is always 0 |
| `LiveActivity.PausedTime` | ios/TimerWidget/TimerWidgetLiveActivity.swift:30-36 | the text always ends in `.0`; for non-negative elapsed seconds it parses back to the paused fields, and a text longer than 6 characters does not start with `0`, so the minutes are unpadded as `%d` prints them |
| `LiveActivity.TimeIntervalSinceNow` | ios/TimerWidget/TimerWidgetLiveActivity.swift:38-43 | 0 before any start; otherwise `now` plus it is the start, so it is ≤ 0 once the start is not in the future |
| `LiveActivity.IsRunning` | ios/TimerWidget/TimerWidgetLiveActivity.swift:45-47 | running exactly when there is no pause instant, including before any start |
| `LiveActivity.NeverStartedReadsZero` | ios/TimerWidget/TimerWidgetLiveActivity.swift:21-23 | without a start the elapsed seconds and the interval are 0 and the paused text is `0:00.0`, whatever the pause and the clock |
| `LiveActivity.PausedIgnoresClock` | ios/TimerWidget/TimerWidgetLiveActivity.swift:27 | when not running, elapsed seconds and paused text do not depend on `now` |
| `LiveActivity.RunningViewAgrees` | ios/TimerWidget/TimerWidgetLiveActivity.swift:38-43 | while running, the elapsed seconds are the whole seconds of minus the interval since now |
| `LiveActivity.RunningClockAdvances` | ios/TimerWidget/TimerWidgetLiveActivity.swift:24-25 | while running past the start, one more second on the clock is one more elapsed second |
| `Replicas.PausedReplicasAgree` | ios/TimerWidget/TimerWidgetLiveActivity.swift:27-33 | after the hook pauses, a content state with the same instants is not running, shows the frozen milliseconds in whole seconds, and the same seconds field as the hook's display |
| `Replicas.RunningReplicasAgree` | ios/TimerWidget/TimerWidgetLiveActivity.swift:24-25 | after a play that leaves no pause instant, a content state with the same start is running and its elapsed seconds are the whole seconds of the hook's refreshed elapsed time |

## Left out

- React machinery: `useState`/`useRef`/`useCallback`/`useEffect`, listener subscription and removal, and the `AppState` listener; the foreground check `nextAppState === 'active'` is the caller's decision to call `Reconcile`.
- The 32 ms `setInterval` timing: the interval is a flag and `Refresh` is its callback, applied whenever the caller chooses.
- The native bridge (`ios/TimerWidget/TimerWidgetModule.swift`): ActivityKit requests, updates and endings run asynchronously and may fail silently; commands are abstract outputs and `Snapshot` is what `getCurrentState` reports. Its `ContentState(startTime:elapsedTime:isRunning:)` does not match the content state modelled here and is not reconciled with it.
- `ios/TimerWidget/TimerWidgetLiveActivityIntent.swift` is modelled only as the three events of `HandleEvent`, each sent without a body; the global emitter is left out.
- `ios/TimerWidget/TimerWidgetBundle.swift` (widget registration) and all SwiftUI layout, colours and buttons: no logic.
- Floating point: bridge values are exact millisecond counts, so fractional milliseconds, `NaN` and Double rounding of `/ 1000` are not modelled; a reconciliation snapshot with a fractional millisecond is not representable.
- Swift `Int` overflow traps and Double precision limits on very large timestamps: integers are unbounded.
- `console.log` output.
- `Stopwatch.Display`: states nothing for a negative elapsed time (reachable only when the clock reads before the recorded start); the text is still computed with JavaScript's truncating `%` and flooring `Math.floor`.
- `Stopwatch.DisplayFields`: states nothing for a negative elapsed time, for the same reason.
- `LiveActivity.PausedTime`: states the read-back only for non-negative elapsed seconds; for negative ones it only states the `.0` ending.

=== FILE: arith.dfy ===
/** Integer division as Swift's `Int` and JavaScript's `%` perform it.

    Dafny's `/` and `%` are Euclidean; for a positive divisor `/` is floor
    division (JavaScript's `Math.floor(a / b)`), while Swift's `/` and `%` and
    JavaScript's `%` truncate toward zero. The two agree on non-negative
    dividends only. */
module Arith {

  /** Quotient rounded toward zero: Swift's `a / b`, and `Int(x)` of a quotient. */
  function TruncDiv(a: int, b: int): (q: int)
    requires b > 0
    ensures 0 <= a ==> 0 <= q && q * b <= a < q * b + b
    ensures a < 0 ==> q <= 0 && q * b - b < a <= q * b
  {
    DivMod(if a >= 0 then a else -a, b);
    if a >= 0 then a / b else -((-a) / b)
  }

  /** Euclidean division of a non-negative dividend by a positive divisor. */
  lemma DivMod(a: int, b: int)
    requires 0 <= a && 0 < b
    ensures a == (a / b) * b + a % b && 0 <= a % b < b && 0 <= a / b
  {
  }

  /** Remainder whose sign follows the dividend: Swift's and JavaScript's `a % b`. */
  function TruncRem(a: int, b: int): (r: int)
    requires b > 0
    ensures a == TruncDiv(a, b) * b + r
    ensures 0 <= a ==> 0 <= r < b && r == a % b
    ensures a < 0 ==> -b < r <= 0
  {
    DivMod(if a >= 0 then a else -a, b);
    if a >= 0 then a % b else -((-a) % b)
  }

  /** `Int(x.rounded())` of a Double: the nearest integer, ties away from zero. */
  function RoundHalfAway(x: real): (n: int)
    ensures 0.0 <= x ==> x - 0.5 < n as real <= x + 0.5
    ensures x < 0.0 ==> x - 0.5 <= n as real < x + 0.5
  {
    if x >= 0.0 then (x + 0.5).Floor else -((-x + 0.5).Floor)
  }

  /** Rounding a whole number gives it back, so `n - n.rounded()` is zero. */
  lemma RoundWhole(n: int)
    ensures RoundHalfAway(n as real) == n
  {
  }
}

=== FILE: live_activity.dfy ===
/** The content state of the timer's live activity and the helpers its views
    read: the elapsed whole seconds, the paused-time text, the interval the
    running timer view counts from, and whether the timer is running.

    Timestamps are epoch milliseconds; the Doubles of seconds that the helpers
    compute are held as their exact number of milliseconds. */
module LiveActivity {
  import opened Nullable
  import opened Arith
  import opened Text

  datatype ContentState = ContentState(startedAt: Option<int>, pausedAt: Option<int>)

  /** `getElapsedTimeInSeconds`: the span from the start to the pause, or to
      `now` while running, in whole seconds rounded toward zero; 0 before any
      start. */
  function ElapsedSeconds(cs: ContentState, now: int): (r: int)
    ensures cs.startedAt.None? ==> r == 0
    ensures cs.startedAt.Some? ==>
              var span := (if cs.pausedAt.Some? then cs.pausedAt.value else now) - cs.startedAt.value;
              (0 <= span ==> 0 <= r && r * 1000 <= span < r * 1000 + 1000)
              && (span < 0 ==> r <= 0 && r * 1000 - 1000 < span <= r * 1000)
  {
    match cs.startedAt
    case None => 0
    case Some(started) =>
      match cs.pausedAt
      case None => TruncDiv(now - started, 1000)
      case Some(paused) => TruncDiv(paused - started, 1000)
  }

  /** The fields `getPausedTime` prints for an elapsed number of seconds:
      minutes within the hour, seconds within the minute, and the
      "milliseconds" computed as the seconds minus their own rounding. */
  function PausedFields(elapsed: int): (c: Clock)
    ensures 0 <= elapsed ==>
              0 <= c.minutes <= 59 && 0 <= c.seconds <= 59 && c.minutes * 60 + c.seconds == elapsed % 3600
    ensures elapsed < 0 ==> -59 <= c.minutes <= 0 && -59 <= c.seconds <= 0
    ensures c.fraction == 0
  {
    var minutes := TruncDiv(TruncRem(elapsed, 3600), 60);
    var seconds := TruncRem(elapsed, 60);
    var millis := (elapsed - RoundHalfAway(elapsed as real)) * 1000;
    RoundWhole(elapsed);
    if 0 <= elapsed then HourSplit(elapsed); Clock(minutes, seconds, millis)
    else HourSplit(-elapsed); Clock(minutes, seconds, millis)
  }

  lemma HourSplit(e: int)
    requires 0 <= e
    ensures (e % 3600) / 60 <= 59 && (e % 3600) / 60 * 60 + e % 60 == e % 3600
  {
    DivMod(e, 3600);
    DivMod(e % 3600, 60);
    var m, s := (e % 3600) / 60, (e % 3600) % 60;
    assert e == (e / 3600 * 60 + m) * 60 + s;
    var k := e / 3600 * 60 + m;
    assert e - k * 60 == s;
  }

  /** `getPausedTime`: `%d:%02d.%0d` of the paused fields. */
  function PausedTime(cs: ContentState, now: int): (s: string)
    ensures 0 <= ElapsedSeconds(cs, now) ==>
              ParseClock(s) == Some(PausedFields(ElapsedSeconds(cs, now)))
    ensures 2 <= |s| && s[|s| - 2..] == ".0"
    // `%d` minutes: no leading zero once they take two digits or more
    ensures 0 <= ElapsedSeconds(cs, now) && 6 < |s| ==> s[0] != '0'
  {
    var elapsed := ElapsedSeconds(cs, now);
    PausedTextOf(elapsed);
    PausedText(PausedFields(elapsed))
  }

  lemma PausedTextOf(elapsed: int)
    ensures var s := PausedText(PausedFields(elapsed));
            2 <= |s| && s[|s| - 2..] == ".0"
            && (0 <= elapsed ==> ParseClock(s) == Some(PausedFields(elapsed)))
            && (0 <= elapsed && 6 < |s| ==> s[0] != '0')
  {
    var c := PausedFields(elapsed);
    PausedTextEnding(c);
    if 0 <= elapsed {
      PausedTextParses(c);
    }
  }

  function PausedText(c: Clock): string {
    ClockText(IntToString(c.minutes), Pad2(IntToString(c.seconds)), IntToString(c.fraction))
  }

  lemma PausedTextEnding(c: Clock)
    requires c.fraction == 0
    ensures 2 <= |PausedText(c)| && PausedText(c)[|PausedText(c)| - 2..] == ".0"
  {
    SingleDigit(0);
    var s := PausedText(c);
    assert s == (IntToString(c.minutes) + ":" + Pad2(IntToString(c.seconds))) + ".0";
  }

  lemma PausedTextParses(c: Clock)
    requires 0 <= c.minutes && 0 <= c.seconds <= 99 && c.fraction == 0
    ensures ParseClock(PausedText(c)) == Some(c)
    ensures 6 < |PausedText(c)| ==> PausedText(c)[0] != '0'
  {
    ClockTextHead(IntToString(c.minutes), Pad2(IntToString(c.seconds)), IntToString(c.fraction));
    PaddedRoundTrip(c.seconds);
    SingleDigit(0);
    ClockTextRoundTrip(IntToString(c.minutes), Pad2(IntToString(c.seconds)), IntToString(c.fraction));
  }

  /** `getTimeIntervalSinceNow`: the offset from `now` back to the start (so
      `now` plus it is the start), and 0 before any start. */
  function TimeIntervalSinceNow(cs: ContentState, now: int): (r: int)
    ensures cs.startedAt.None? ==> r == 0
    ensures cs.startedAt.Some? ==> now + r == cs.startedAt.value
    ensures cs.startedAt.Some? && cs.startedAt.value <= now ==> r <= 0
  {
    match cs.startedAt
    case None => 0
    case Some(started) => started - now
  }

  /** `isRunning`: there is no pause instant, which also holds before any start. */
  function IsRunning(cs: ContentState): (r: bool)
    ensures r <==> cs.pausedAt.None?
  {
    cs.pausedAt == None
  }

  /** Before any start the activity reads zero, whatever else it holds. */
  lemma NeverStartedReadsZero(cs: ContentState, now: int)
    requires cs.startedAt.None?
    ensures ElapsedSeconds(cs, now) == 0
    ensures PausedTime(cs, now) == "0:00.0"
    ensures TimeIntervalSinceNow(cs, now) == 0
  {
    assert PausedFields(0) == Clock(0, 0, 0);
  }

  /** Once paused, what the activity shows no longer depends on the clock. */
  lemma PausedIgnoresClock(cs: ContentState, now1: int, now2: int)
    requires !IsRunning(cs)
    ensures ElapsedSeconds(cs, now1) == ElapsedSeconds(cs, now2)
    ensures PausedTime(cs, now1) == PausedTime(cs, now2)
  {
  }

  /** While running, the timer view counting from `now + TimeIntervalSinceNow`
      and the elapsed seconds measure the same span. */
  lemma RunningViewAgrees(cs: ContentState, now: int)
    requires IsRunning(cs) && cs.startedAt.Some?
    ensures ElapsedSeconds(cs, now) == TruncDiv(-TimeIntervalSinceNow(cs, now), 1000)
  {
  }

  /** While running and past the start, a further second on the clock is one
      more elapsed second. */
  lemma RunningClockAdvances(cs: ContentState, now: int)
    requires IsRunning(cs) && cs.startedAt.Some? && cs.startedAt.value <= now
    ensures ElapsedSeconds(cs, now + 1000) == ElapsedSeconds(cs, now) + 1
  {
    var span := now - cs.startedAt.value;
    DivMod(span, 1000);
    assert span + 1000 == (span / 1000 + 1) * 1000 + span % 1000;
  }
}

=== FILE: nullable.dfy ===
/** A value that may be absent: JavaScript's `null`/`undefined` and Swift's `nil`. */
module Nullable {

  datatype Option<+T> = None | Some(value: T)
}

=== FILE: replicas.dfy ===
/** The in-app stopwatch and the live activity hold separate copies of the
    timer. Read off the same start and pause instants, the two copies show the
    same whole seconds.

    Both lemmas here are hypothetical: no code path builds a content state
    from the hook's instants (the native module fills the activity from other
    fields), so `Mirror` only asks what the activity's helpers would show if
    it held the hook's start and pause. */
module Replicas {
  import opened Nullable
  import opened Arith
  import opened Text
  import opened Stopwatch
  import opened LiveActivity

  /** The content state carrying the stopwatch's start and pause instants. */
  function Mirror(t: Timer): ContentState {
    ContentState(t.startTime, t.pausedTime)
  }

  /** After a pause, the activity holding the same instants is not running,
      its elapsed seconds are the stopwatch's frozen milliseconds in whole
      seconds, and both texts show the same seconds field. */
  lemma PausedReplicasAgree(t: Timer, now: int, timestamp: Option<Seconds>, later: int)
    requires Truthy(t.startTime) && !Truthy(t.pausedTime)
    requires 0 <= Pause(t, now, timestamp).timer.elapsedMs
    ensures var paused := Pause(t, now, timestamp).timer;
            !IsRunning(Mirror(paused))
            && ElapsedSeconds(Mirror(paused), later) == paused.elapsedMs / 1000
            && PausedFields(ElapsedSeconds(Mirror(paused), later)).seconds == DisplayFields(paused.elapsedMs).seconds
  {
    var paused := Pause(t, now, timestamp).timer;
    DivMod(paused.elapsedMs, 1000);
  }

  /** After a play that leaves no pause instant, the activity holding the same
      start is running, and at any later reading its elapsed seconds are the
      whole seconds of what the stopwatch's refresh displays. */
  lemma RunningReplicasAgree(t: Timer, now: int, later: int)
    requires Consistent(t)
    requires Play(t, now).timer.pausedTime == None
    requires Play(t, now).timer.startTime.value <= later
    ensures var playing := Play(t, now).timer;
            IsRunning(Mirror(playing))
            && ElapsedSeconds(Mirror(playing), later) == Refresh(playing, later).elapsedMs / 1000
  {
    var playing := Play(t, now).timer;
    DivMod(later - playing.startTime.value, 1000);
  }
}

=== FILE: stopwatch.dfy ===
/** The in-app stopwatch of `useTimer`: its state, the transitions `play`,
    `pause`, `reset`, the refresh-interval callback, the foreground
    reconciliation, and the `MM:SS.d` display.

    Every transition is a pure function of the state and the current clock
    reading `now` (epoch milliseconds, what `Date.now()` returns), and yields
    the new state together with the commands it sends to the native live
    activity module. */
module Stopwatch {
  import opened Nullable
  import opened Arith
  import opened Text

  /** A seconds value as it crosses the bridge to the native module (a Double
      there), held as its exact number of milliseconds: the source's `x * 1000`
      is `x.millis` and its `y / 1000` is `Seconds(y)`. */
  datatype Seconds = Seconds(millis: int)

  /** The calls the stopwatch makes on the native live activity module. */
  datatype Command =
    | StartLiveActivity(startedAt: Seconds)
    | ResumeActivity
    | PauseActivity(pausedAt: Seconds, elapsed: Seconds)
    | StopLiveActivity

  /** The hook's state: the two timestamp refs, the displayed elapsed time,
      the `isPlaying` flag, and whether the refresh interval is installed. */
  datatype Timer = Timer(
    startTime: Option<int>,
    pausedTime: Option<int>,
    elapsedMs: int,
    isPlaying: bool,
    intervalActive: bool)

  /** A transition's outcome: the new state and the commands sent, in order. */
  datatype Step = Step(timer: Timer, commands: seq<Command>)

  /** What the native module reports on `getCurrentState`; `isRunning` is
      absent when no live activity exists. */
  datatype Snapshot = Snapshot(isRunning: Option<bool>, startTime: Seconds, elapsedTime: Seconds)

  /** The inbound events the live activity's buttons emit. */
  datatype ActivityEvent = OnPause | OnResume | OnReset

  /** The state on mount and after `reset`. */
  const Initial := Timer(None, None, 0, false, false)

  /** JavaScript truthiness of a nullable timestamp: `null` and `0` are false. */
  predicate Truthy(v: Option<int>) {
    v.Some? && v.value != 0
  }

  /** The interval is only ever installed once a start is recorded. */
  predicate Consistent(t: Timer) {
    t.intervalActive ==> t.startTime.Some?
  }

  /** The timer is paused: both refs are set (truthy). */
  predicate IsPaused(t: Timer) {
    Truthy(t.startTime) && Truthy(t.pausedTime)
  }

  /** `play`: marks the timer playing; unless the refresh interval is already
      installed, records the start (first play) or shifts the start past the
      pause (resume), tells the native side, and installs the interval. */
  function Play(t: Timer, now: int): (r: Step)
    ensures r.timer.isPlaying && r.timer.intervalActive
    ensures Consistent(t) ==> r.timer.startTime.Some?
    ensures r.timer.elapsedMs == t.elapsedMs
    ensures |r.commands| <= 1
    // already running: only the flag changes, nothing is sent
    ensures t.intervalActive ==> r.timer == t.(isPlaying := true) && r.commands == []
    // first play: the clock reading becomes the start, and the activity is started with it
    ensures !t.intervalActive && t.startTime == None && t.pausedTime == None ==>
              r.timer.startTime == Some(now) && r.timer.pausedTime == None
              && r.commands == [StartLiveActivity(Seconds(now))]
    // resume: the time spent paused is skipped, so the elapsed time at the pause is kept
    ensures !t.intervalActive && IsPaused(t) ==>
              now - r.timer.startTime.value == t.pausedTime.value - t.startTime.value
              && r.timer.pausedTime == None && r.commands == [ResumeActivity]
    // a start that is already recorded is kept unless a pause is being skipped
    ensures Truthy(t.startTime) && !Truthy(t.pausedTime) ==> r.timer.startTime == t.startTime
    // and a pause that is not being skipped stays as it was
    ensures !Truthy(t.pausedTime) ==> r.timer.pausedTime == t.pausedTime
    ensures r.commands == [ResumeActivity] <==> !t.intervalActive && Truthy(t.pausedTime)
    // without a pause to skip, the activity is (re)started with the start that stands
    ensures !t.intervalActive && !Truthy(t.pausedTime) ==>
              r.commands == [StartLiveActivity(Seconds(r.timer.startTime.value))]
  {
    if t.intervalActive then
      Step(t.(isPlaying := true), [])
    else
      var start := if Truthy(t.startTime) then t.startTime.value else now;
      if Truthy(t.pausedTime) then
        var shifted := start + (now - t.pausedTime.value);
        Step(t.(isPlaying := true, startTime := Some(shifted), pausedTime := None, intervalActive := true),
             [ResumeActivity])
      else
        Step(t.(isPlaying := true, startTime := Some(start), intervalActive := true),
             [StartLiveActivity(Seconds(start))])
  }

  /** `pause(timestamp?)`: stops playing and removes the interval; if the timer
      was started and not yet paused, freezes the elapsed time at the given
      timestamp (or at `now` when none is given) and tells the native side. */
  function Pause(t: Timer, now: int, timestamp: Option<Seconds>): (r: Step)
    ensures !r.timer.isPlaying && !r.timer.intervalActive
    ensures r.timer.startTime == t.startTime
    ensures |r.commands| <= 1
    // running: the pause instant is the given timestamp, else now; elapsed is measured up to it
    ensures Truthy(t.startTime) && !Truthy(t.pausedTime) ==>
              r.timer.pausedTime.Some?
              && (timestamp.Some? && timestamp.value.millis != 0 ==> r.timer.pausedTime.value == timestamp.value.millis)
              && (!(timestamp.Some? && timestamp.value.millis != 0) ==> r.timer.pausedTime.value == now)
              && r.timer.elapsedMs == r.timer.pausedTime.value - t.startTime.value
              && r.commands == [PauseActivity(Seconds(r.timer.pausedTime.value), Seconds(r.timer.elapsedMs))]
    // already paused, or never started: timestamps and elapsed untouched, nothing sent
    ensures !(Truthy(t.startTime) && !Truthy(t.pausedTime)) ==>
              r.timer == t.(isPlaying := false, intervalActive := false) && r.commands == []
  {
    var stopped := t.(isPlaying := false, intervalActive := false);
    if Truthy(t.startTime) && !Truthy(t.pausedTime) then
      var at := if timestamp.Some? && timestamp.value.millis != 0 then timestamp.value.millis else now;
      var elapsed := at - t.startTime.value;
      Step(stopped.(pausedTime := Some(at), elapsedMs := elapsed), [PauseActivity(Seconds(at), Seconds(elapsed))])
    else
      Step(stopped, [])
  }

  /** `reset`: back to the never-started state from anywhere, and the live
      activity is ended. */
  function Reset(t: Timer): (r: Step)
    ensures r.timer.startTime == None && r.timer.pausedTime == None && r.timer.elapsedMs == 0
    ensures !r.timer.isPlaying && !r.timer.intervalActive
    ensures r.commands == [StopLiveActivity]
  {
    Step(Initial, [StopLiveActivity])
  }

  /** The 32 ms interval callback: while installed, the displayed elapsed time
      follows the clock (a missing start reads as 0, as `null` does in
      JavaScript arithmetic). */
  function Refresh(t: Timer, now: int): (r: Timer)
    ensures !t.intervalActive ==> r == t
    ensures t.intervalActive && t.startTime.Some? ==> r.elapsedMs + t.startTime.value == now
    ensures r.(elapsedMs := t.elapsedMs) == t
  {
    if t.intervalActive then
      t.(elapsedMs := now - (if t.startTime.Some? then t.startTime.value else 0))
    else
      t
  }

  /** The foreground handler: adopts the live activity's state. An absent
      `isRunning` changes nothing; a running activity lends its start and then
      plays; a paused one lends its start and elapsed time, with the pause
      marked at the moment of reconciliation. */
  function Reconcile(t: Timer, now: int, snapshot: Snapshot): (r: Step)
    ensures |r.commands| <= 1
    ensures snapshot.isRunning.None? ==> r == Step(t, [])
    ensures snapshot.isRunning == Some(true) ==>
              r == Play(t.(startTime := Some(snapshot.startTime.millis)), now)
              && r.timer.isPlaying && r.timer.intervalActive
    // the adopted start stands unless a local pause is skipped on top of it
    ensures snapshot.isRunning == Some(true) && snapshot.startTime.millis != 0
            && (t.intervalActive || !Truthy(t.pausedTime)) ==>
              r.timer.startTime == Some(snapshot.startTime.millis)
    ensures snapshot.isRunning == Some(true) && snapshot.startTime.millis != 0
            && !t.intervalActive && Truthy(t.pausedTime) ==>
              r.timer.startTime == Some(snapshot.startTime.millis + (now - t.pausedTime.value))
    ensures snapshot.isRunning == Some(false) ==>
              r.timer.startTime == Some(snapshot.startTime.millis)
              && r.timer.pausedTime == Some(now)
              && r.timer.elapsedMs == snapshot.elapsedTime.millis
              && !r.timer.isPlaying
              && r.timer.intervalActive == t.intervalActive
              && r.commands == []
  {
    match snapshot.isRunning
    case None => Step(t, [])
    case Some(running) =>
      if running then
        Play(t.(startTime := Some(snapshot.startTime.millis)), now)
      else
        Step(t.(pausedTime := Some(now), startTime := Some(snapshot.startTime.millis),
                elapsedMs := snapshot.elapsedTime.millis, isPlaying := false),
             [])
  }

  /** The listeners on the event emitter: the activity's buttons send their
      events with no body, so `onPause` reaches `pause` without a timestamp. */
  function HandleEvent(t: Timer, now: int, event: ActivityEvent): (r: Step)
    ensures |r.commands| <= 1
    ensures Consistent(t) ==> Consistent(r.timer)
    ensures event == OnResume ==> r.timer.isPlaying && r.timer.intervalActive
    ensures event == OnPause ==> !r.timer.isPlaying && !r.timer.intervalActive && r.timer.startTime == t.startTime
    // a pause from the activity on a running timer is taken at the moment it arrives
    ensures event == OnPause && Truthy(t.startTime) && !Truthy(t.pausedTime) ==>
              r.timer.pausedTime == Some(now) && r.timer.elapsedMs == now - t.startTime.value
              && r.commands == [PauseActivity(Seconds(now), Seconds(now - t.startTime.value))]
    // an `onPause` arriving after a reset leaves the timer idle and sends nothing
    ensures event == OnPause && t == Initial ==> r == Step(Initial, [])
    ensures event == OnReset ==> r.timer == Initial && r.commands == [StopLiveActivity]
  {
    match event
    case OnPause => Pause(t, now, None)
    case OnResume => Play(t, now)
    case OnReset => Reset(t)
  }

  /** The fields of the display: whole minutes (unbounded), seconds within the
      minute, and the tenth of a second. */
  function DisplayFields(ms: int): (c: Clock)
    ensures 0 <= ms ==> 0 <= c.minutes && 0 <= c.seconds <= 59 && 0 <= c.fraction <= 9
    ensures 0 <= ms ==> c.minutes * 60000 + c.seconds * 1000 + c.fraction * 100 <= ms
                        < c.minutes * 60000 + c.seconds * 1000 + c.fraction * 100 + 100
  {
    var secs := ms / 1000;
    var c := Clock(secs / 60, TruncRem(secs, 60), TruncRem(ms, 1000) / 100);
    if 0 <= ms then FieldsAdd(ms); c else c
  }

  lemma FieldsAdd(ms: int)
    requires 0 <= ms
    ensures var secs := ms / 1000;
            (secs / 60) * 60000 + (secs % 60) * 1000 + ((ms % 1000) / 100) * 100 <= ms
            < (secs / 60) * 60000 + (secs % 60) * 1000 + ((ms % 1000) / 100) * 100 + 100
  {
    var secs := ms / 1000;
    DivMod(ms, 1000);
    DivMod(secs, 60);
    DivMod(ms % 1000, 100);
  }

  /** The `value` string: minutes and seconds padded to two digits, then one
      digit of tenths. */
  function Display(ms: int): (s: string)
    ensures 0 <= ms ==> 7 <= |s| && ParseClock(s) == Some(DisplayFields(ms))
    // the minutes carry no zero beyond the two `padStart` guarantees
    ensures 0 <= ms && 7 < |s| ==> s[0] != '0'
  {
    var c := DisplayFields(ms);
    if 0 <= ms then DisplayTextParses(c); DisplayText(c) else DisplayText(c)
  }

  function DisplayText(c: Clock): string {
    ClockText(Pad2(IntToString(c.minutes)), Pad2(IntToString(c.seconds)), IntToString(c.fraction))
  }

  lemma DisplayTextParses(c: Clock)
    requires 0 <= c.minutes && 0 <= c.seconds <= 99 && 0 <= c.fraction <= 9
    ensures 7 <= |DisplayText(c)| && ParseClock(DisplayText(c)) == Some(c)
    ensures 7 < |DisplayText(c)| ==> DisplayText(c)[0] != '0'
  {
    DisplayTextHead(c);
    PaddedRoundTrip(c.minutes);
    PaddedRoundTrip(c.seconds);
    SingleDigit(c.fraction);
    ClockTextRoundTrip(Pad2(IntToString(c.minutes)), Pad2(IntToString(c.seconds)), IntToString(c.fraction));
  }

  lemma DisplayTextHead(c: Clock)
    requires 0 <= c.minutes && 0 <= c.seconds <= 99 && 0 <= c.fraction <= 9
    ensures 7 < |DisplayText(c)| ==> DisplayText(c)[0] != '0'
  {
    var minutes := Pad2(IntToString(c.minutes));
    PaddedRoundTrip(c.minutes);
    PaddedRoundTrip(c.seconds);
    SingleDigit(c.fraction);
    ClockTextHead(minutes, Pad2(IntToString(c.seconds)), IntToString(c.fraction));
  }

  /** Under ten minutes the display is exactly a zero, the minute digit, a
      colon, two second digits, a point and the tenths digit. */
  lemma DisplayUnderTenMinutes(ms: int)
    requires 0 <= ms < 600_000
    ensures var c := DisplayFields(ms);
            0 <= c.minutes < 10
            && Display(ms) == ['0', DigitChar(c.minutes), ':', DigitChar(c.seconds / 10),
                               DigitChar(c.seconds % 10), '.', DigitChar(c.fraction)]
  {
    var c := DisplayFields(ms);
    assert Display(ms) == DisplayText(c);
    SmallDisplayText(c);
  }

  lemma SmallDisplayText(c: Clock)
    requires 0 <= c.minutes < 10 && 0 <= c.seconds < 100 && 0 <= c.fraction < 10
    ensures DisplayText(c) == ['0', DigitChar(c.minutes), ':', DigitChar(c.seconds / 10),
                               DigitChar(c.seconds % 10), '.', DigitChar(c.fraction)]
  {
    var minutes, seconds, fraction := Pad2(IntToString(c.minutes)), Pad2(IntToString(c.seconds)), IntToString(c.fraction);
    SingleDigit(c.minutes);
    TwoDigits(c.seconds);
    SingleDigit(c.fraction);
    assert minutes == ['0', DigitChar(c.minutes)];
    assert seconds == [DigitChar(c.seconds / 10), DigitChar(c.seconds % 10)];
    assert fraction == [DigitChar(c.fraction)];
    assert DisplayText(c) == minutes + [':'] + seconds + ['.'] + fraction;
  }
}

=== FILE: stopwatch_trace.dfy ===
/** Runs of the stopwatch over a sequence of user inputs, compared with an
    abstract stopwatch that simply adds up the intervals it ran. */
module StopwatchTrace {
  import opened Nullable
  import opened Text
  import opened Stopwatch

  /** An input at a clock reading: a call of `play`, `pause` (without a
      timestamp) or `reset`, a tick of the refresh interval, or an event from
      the live activity's buttons, whose `onPause` carries a nil body. */
  datatype Input =
    | PlayAt(at: int)
    | PauseAt(at: int)
    | RefreshAt(at: int)
    | ResetAt(at: int)
    | EventAt(at: int, event: ActivityEvent)

  /** The reference stopwatch: idle, running since `since` with `banked`
      milliseconds from earlier intervals, or stopped at `at` with `banked`
      milliseconds in total. */
  datatype Watch = Idle | Running(since: int, banked: int) | Stopped(at: int, banked: int)

  function WatchPlay(w: Watch, n: int): Watch {
    match w
    case Idle => Running(n, 0)
    case Running(_, _) => w
    case Stopped(_, b) => Running(n, b)
  }

  function WatchPause(w: Watch, n: int): Watch {
    match w
    case Running(s, b) => Stopped(n, b + (n - s))
    case _ => w
  }

  function WatchStep(w: Watch, i: Input): Watch {
    match i
    case ResetAt(_) => Idle
    case RefreshAt(_) => w
    case PlayAt(n) => WatchPlay(w, n)
    case PauseAt(n) => WatchPause(w, n)
    case EventAt(n, e) =>
      (match e
       case OnPause => WatchPause(w, n)
       case OnResume => WatchPlay(w, n)
       case OnReset => Idle)
  }

  function WatchRun(w: Watch, inputs: seq<Input>): Watch
    decreases |inputs|
  {
    if |inputs| == 0 then w else WatchRun(WatchStep(w, inputs[0]), inputs[1..])
  }

  /** One input applied to the hook. */
  function Apply(t: Timer, i: Input): (r: Step)
    ensures |r.commands| <= 1
    ensures Consistent(t) ==> Consistent(r.timer)
  {
    match i
    case PlayAt(n) => Play(t, n)
    case PauseAt(n) => Pause(t, n, None)
    case RefreshAt(n) => Step(Refresh(t, n), [])
    case ResetAt(_) => Reset(t)
    case EventAt(n, e) => HandleEvent(t, n, e)
  }

  /** A whole run: the final state and every command sent, in order. */
  function Run(t: Timer, inputs: seq<Input>): (r: Step)
    ensures |r.commands| <= |inputs|
    ensures Consistent(t) ==> Consistent(r.timer)
    decreases |inputs|
  {
    if |inputs| == 0 then Step(t, [])
    else
      var first := Apply(t, inputs[0]);
      var rest := Run(first.timer, inputs[1..]);
      Step(rest.timer, first.commands + rest.commands)
  }

  /** Clock readings that never go backwards, starting no earlier than `clock`. */
  predicate Ordered(clock: int, inputs: seq<Input>)
    decreases |inputs|
  {
    |inputs| == 0 || (clock <= inputs[0].at && Ordered(inputs[0].at, inputs[1..]))
  }

  function LastTime(clock: int, inputs: seq<Input>): int
    decreases |inputs|
  {
    if |inputs| == 0 then clock else LastTime(inputs[0].at, inputs[1..])
  }

  /** How the hook's state represents the reference stopwatch at a clock reading. */
  predicate Tracks(t: Timer, w: Watch, clock: int) {
    1 <= clock &&
    match w
    case Idle => t == Initial
    case Running(since, banked) =>
      0 <= banked && since <= clock && 1 <= since - banked
      && t.startTime == Some(since - banked) && t.pausedTime == None
      && t.isPlaying && t.intervalActive
    case Stopped(at, banked) =>
      0 <= banked && at <= clock && 1 <= at - banked
      && t.startTime == Some(at - banked) && t.pausedTime == Some(at) && t.elapsedMs == banked
      && !t.isPlaying && !t.intervalActive
  }

  lemma ApplyTracks(t: Timer, w: Watch, clock: int, i: Input)
    requires Tracks(t, w, clock) && clock <= i.at
    ensures Tracks(Apply(t, i).timer, WatchStep(w, i), i.at)
  {
  }

  /** Over any ordered run of plays, pauses, refreshes and resets, the hook
      keeps representing the reference stopwatch. */
  lemma {:induction false} RunTracks(t: Timer, w: Watch, clock: int, inputs: seq<Input>)
    requires Tracks(t, w, clock) && Ordered(clock, inputs)
    ensures Tracks(Run(t, inputs).timer, WatchRun(w, inputs), LastTime(clock, inputs))
    decreases |inputs|
  {
    if |inputs| > 0 {
      ApplyTracks(t, w, clock, inputs[0]);
      RunTracks(Apply(t, inputs[0]).timer, WatchStep(w, inputs[0]), inputs[0].at, inputs[1..]);
    }
  }

  /** From the initial state, whenever a run ends paused the displayed elapsed
      time is the sum of all intervals spent running since the last reset; when
      it ends running, a refresh at any later reading shows that sum plus the
      current interval. */
  lemma PausedElapsedIsRunningTotal(inputs: seq<Input>, start: int, later: int)
    requires 1 <= start && Ordered(start, inputs) && LastTime(start, inputs) <= later
    ensures WatchRun(Idle, inputs).Stopped? ==>
              Run(Initial, inputs).timer.elapsedMs == WatchRun(Idle, inputs).banked
    ensures WatchRun(Idle, inputs).Running? ==>
              Refresh(Run(Initial, inputs).timer, later).elapsedMs
              == WatchRun(Idle, inputs).banked + (later - WatchRun(Idle, inputs).since)
    ensures WatchRun(Idle, inputs).Idle? ==> Run(Initial, inputs).timer == Initial
  {
    RunTracks(Initial, Idle, start, inputs);
  }

  /** Reconciling with a running activity whose start is not in the future,
      while no pause is recorded locally, leaves the hook running from that
      start with the time since it banked. If the interval was off, the
      activity is sent a start again, with the start it already has. */
  lemma ReconcileRunningTracks(t: Timer, now: int, start: int, elapsed: Seconds)
    requires 1 <= start <= now && t.pausedTime == None
    ensures var r := Reconcile(t, now, Snapshot(Some(true), Seconds(start), elapsed));
            Tracks(r.timer, Running(now, now - start), now)
            && r.commands == (if t.intervalActive then [] else [StartLiveActivity(Seconds(start))])
  {
  }

  /** Reconciling with a paused activity, with the interval off, leaves the
      hook stopped at the moment of reconciliation, banking the activity's
      elapsed time, exactly when that elapsed time is the span from the
      activity's start to that moment. */
  lemma ReconcilePausedTracks(t: Timer, now: int, start: int, elapsed: Seconds)
    requires 1 <= start <= now && !t.intervalActive
    ensures var r := Reconcile(t, now, Snapshot(Some(false), Seconds(start), elapsed));
            r.commands == []
            && (Tracks(r.timer, Stopped(now, elapsed.millis), now) <==> elapsed.millis == now - start)
  {
  }

  /** A play after reconciling with a paused activity resumes from the span
      between the activity's start and the reconciliation, not from the
      activity's elapsed time: the two agree only when the activity's elapsed
      time is exactly that span, so time the activity spent paused while the
      app was in the background is counted as running. */
  lemma PlayAfterPausedReconcile(t: Timer, now: int, start: int, elapsed: Seconds, resumeAt: int, later: int)
    requires !t.intervalActive && start != 0 && now != 0
    ensures var synced := Reconcile(t, now, Snapshot(Some(false), Seconds(start), elapsed)).timer;
            var resumed := Play(synced, resumeAt);
            synced.elapsedMs == elapsed.millis
            && resumed.commands == [ResumeActivity]
            && Refresh(resumed.timer, later).elapsedMs == (now - start) + (later - resumeAt)
            && (Refresh(resumed.timer, later).elapsedMs == elapsed.millis + (later - resumeAt)
                <==> elapsed.millis == now - start)
  {
  }

  /** A second pause changes nothing and sends nothing (unless the first one
      was taken at clock reading 0, which JavaScript reads as "not paused"). */
  lemma PauseIsIdempotent(t: Timer, now1: int, timestamp1: Option<Seconds>, now2: int, timestamp2: Option<Seconds>)
    ensures var first := Pause(t, now1, timestamp1).timer;
            first.pausedTime != Some(0) ==> Pause(first, now2, timestamp2) == Step(first, [])
  {
  }

  /** After a reset the display reads zero, a second reset changes nothing
      further, and the next play is a first play. */
  lemma ResetShowsZero(t: Timer, now: int)
    ensures Display(Reset(t).timer.elapsedMs) == "00:00.0"
    ensures Reset(Reset(t).timer) == Reset(t)
    ensures Play(Reset(t).timer, now).commands == [StartLiveActivity(Seconds(now))]
  {
    assert DisplayFields(0) == Clock(0, 0, 0);
    DisplayUnderTenMinutes(0);
  }

  /** The clock reading of the sample scenarios' first play: 7 January 2024,
      00:00 UTC, in epoch milliseconds. */
  const SampleStart := 1_704_585_600_000

  /** Play, then pause 65.3 s later: the display reads `01:05.3`; a reset
      brings it back to `00:00.0`. */
  lemma PauseAfterSixtyFiveSeconds()
    ensures var played := Play(Initial, SampleStart);
            var paused := Pause(played.timer, SampleStart + 65_300, None);
            played.commands == [StartLiveActivity(Seconds(SampleStart))]
            && paused.commands == [PauseActivity(Seconds(SampleStart + 65_300), Seconds(65_300))]
            && Display(paused.timer.elapsedMs) == "01:05.3"
            && Display(Reset(paused.timer).timer.elapsedMs) == "00:00.0"
  {
    var played := Play(Initial, SampleStart);
    var paused := Pause(played.timer, SampleStart + 65_300, None);
    assert paused.timer.elapsedMs == 65_300;
    assert DisplayFields(65_300) == Clock(1, 5, 3);
    DisplayUnderTenMinutes(65_300);
    assert Display(65_300) == "01:05.3";
    ResetShowsZero(paused.timer, SampleStart);
  }

  /** A hypothetical foreground: play, then 12 s later the activity reports a
      pause at 10 s while the hook's refresh interval is still installed. The
      hook pauses the activity only through `pause`, which removes the interval
      first, so this needs the bridge's updates to arrive out of order. The
      display reads `00:10.0` and the timer is not playing, but the interval's
      next tick shows the time since the adopted start instead. */
  lemma ForegroundAfterActivityPause()
    ensures var played := Play(Initial, SampleStart);
            var synced := Reconcile(played.timer, SampleStart + 12_000,
                                    Snapshot(Some(false), Seconds(SampleStart), Seconds(10_000)));
            synced.commands == []
            && !synced.timer.isPlaying
            && Display(synced.timer.elapsedMs) == "00:10.0"
            && synced.timer.intervalActive
            && Refresh(synced.timer, SampleStart + 12_032).elapsedMs == 12_032
  {
    var played := Play(Initial, SampleStart);
    var synced := Reconcile(played.timer, SampleStart + 12_000,
                            Snapshot(Some(false), Seconds(SampleStart), Seconds(10_000)));
    assert synced.timer.elapsedMs == 10_000;
    assert DisplayFields(10_000) == Clock(0, 10, 0);
    DisplayUnderTenMinutes(10_000);
  }
}

=== FILE: text.dfy ===
/** Decimal text of integers, left padding, and the `M:SS.d` clock readings that
    both the in-app display and the live activity print. */
module Text {
  import opened Nullable

  /** The three numeric fields of a clock reading `minutes:seconds.fraction`. */
  datatype Clock = Clock(minutes: int, seconds: int, fraction: int)

  predicate IsDigit(c: char) {
    '0' <= c <= '9'
  }

  predicate AllDigits(s: string) {
    forall i :: 0 <= i < |s| ==> IsDigit(s[i])
  }

  function DigitValue(c: char): int {
    c as int - '0' as int
  }

  function DigitChar(d: int): (c: char)
    requires 0 <= d < 10
    ensures IsDigit(c) && DigitValue(c) == d
  {
    ('0' as int + d) as char
  }

  /** Decimal text of a natural number without leading zeros, as
      `Number.prototype.toString` and `%d` print it. */
  function NatToString(n: nat): (s: string)
    ensures 1 <= |s| && AllDigits(s)
    ensures |s| == 1 <==> n < 10
    ensures 1 < |s| ==> s[0] != '0'
    decreases n
  {
    if n < 10 then [DigitChar(n)] else NatToString(n / 10) + [DigitChar(n % 10)]
  }

  /** Value of a string of decimal digits, most significant first. */
  function ParseNat(s: string): (n: int)
    ensures AllDigits(s) ==> 0 <= n
    ensures AllDigits(s) && |s| <= 1 ==> n <= 9
    ensures AllDigits(s) && |s| <= 2 ==> n <= 99
  {
    if |s| == 0 then 0
    else
      var init := s[..|s| - 1];
      assert AllDigits(s) ==> AllDigits(init);
      ParseNat(init) * 10 + DigitValue(s[|s| - 1])
  }

  /** Decimal text of any integer: a minus sign before the digits of a negative one. */
  function IntToString(i: int): (s: string)
    ensures 0 <= i ==> AllDigits(s) && ParseNat(s) == i
    ensures 0 <= i ==> 1 <= |s| && (1 < |s| ==> s[0] != '0')
    ensures i < 0 ==> 2 <= |s| && s[0] == '-' && AllDigits(s[1..]) && ParseNat(s[1..]) == -i
                      && (2 < |s| ==> s[1] != '0')
  {
    if i < 0 then
      var digits := NatToString(-i);
      NatToStringRoundTrip(-i);
      assert ("-" + digits)[1..] == digits;
      "-" + digits
    else
      NatToStringRoundTrip(i);
      NatToString(i)
  }

  /** `s.padStart(2, '0')`, and the zero flag of `%02d` on a digit string:
      zeros in front until the text is two characters long. */
  function Pad2(s: string): (r: string)
    ensures |r| == if |s| < 2 then 2 else |s|
    ensures r[|r| - |s|..] == s
    ensures forall i :: 0 <= i < |r| - |s| ==> r[i] == '0'
  {
    if 2 <= |s| then s else if |s| == 1 then "0" + s else "00"
  }

  function ClockText(minutes: string, seconds: string, fraction: string): string {
    minutes + ":" + seconds + "." + fraction
  }

  /** Reads a clock reading back: one or more minute digits, a colon, exactly two
      second digits, a point and one fraction digit. */
  function ParseClock(s: string): (r: Option<Clock>)
    ensures r.Some? ==> 0 <= r.value.minutes && 0 <= r.value.seconds <= 99 && 0 <= r.value.fraction <= 9
  {
    var n := |s|;
    if n < 6 then None
    else
      var minutes, seconds, fraction := s[..n - 5], s[n - 4..n - 2], s[n - 1..];
      if AllDigits(minutes) && s[n - 5] == ':' && AllDigits(seconds) && s[n - 2] == '.' && AllDigits(fraction) then
        Some(Clock(ParseNat(minutes), ParseNat(seconds), ParseNat(fraction)))
      else None
  }

  lemma {:induction false} NatToStringRoundTrip(n: nat)
    ensures ParseNat(NatToString(n)) == n
    decreases n
  {
    if n >= 10 {
      var s := NatToString(n / 10) + [DigitChar(n % 10)];
      assert s[..|s| - 1] == NatToString(n / 10);
      NatToStringRoundTrip(n / 10);
    }
  }

  /** A leading zero does not change the value of a digit string. */
  lemma {:induction false} LeadingZero(s: string)
    ensures ParseNat("0" + s) == ParseNat(s)
    decreases |s|
  {
    if |s| == 0 {
      assert ("0" + s)[..0] == [];
    } else {
      var z := "0" + s;
      assert z[..|z| - 1] == "0" + s[..|s| - 1];
      LeadingZero(s[..|s| - 1]);
    }
  }

  /** The padded text of a natural number still reads back as that number. */
  lemma PaddedRoundTrip(n: nat)
    ensures var s := Pad2(IntToString(n));
            2 <= |s| && AllDigits(s) && ParseNat(s) == n && (n < 100 ==> |s| == 2)
            && (2 < |s| ==> s[0] != '0')
  {
    var d := IntToString(n);
    assert d == NatToString(n);
    NatToStringRoundTrip(n);
    if n < 10 {
      LeadingZero(d);
    } else if n >= 100 {
      assert d == NatToString(n / 10) + [DigitChar(n % 10)];
      assert 2 <= |NatToString(n / 10)|;
    } else {
      assert NatToString(n / 10) == [DigitChar(n / 10)];
    }
  }

  /** ParseClock inverts ClockText for well-formed fields. */
  lemma ClockTextRoundTrip(minutes: string, seconds: string, fraction: string)
    requires 1 <= |minutes| && AllDigits(minutes)
    requires |seconds| == 2 && AllDigits(seconds)
    requires |fraction| == 1 && AllDigits(fraction)
    ensures ParseClock(ClockText(minutes, seconds, fraction))
         == Some(Clock(ParseNat(minutes), ParseNat(seconds), ParseNat(fraction)))
  {
    var s := ClockText(minutes, seconds, fraction);
    ClockTextSlices(minutes, seconds, fraction);
    ParseWellFormed(s);
  }

  /** Where the three fields sit in a clock text. */
  lemma ClockTextSlices(minutes: string, seconds: string, fraction: string)
    requires |seconds| == 2 && |fraction| == 1
    ensures var s := ClockText(minutes, seconds, fraction);
            |s| == |minutes| + 5 && s[..|s| - 5] == minutes && s[|s| - 5] == ':'
            && s[|s| - 4..|s| - 2] == seconds && s[|s| - 2] == '.' && s[|s| - 1..] == fraction
  {
    var b := minutes + ":";
    var a := b + seconds + ".";
    var s := a + fraction;
    assert s == ClockText(minutes, seconds, fraction);
    var n := |s|;
    assert s[n - 1..] == fraction;
    assert s[..|a|] == a;
    assert a[..|b|] == b;
    assert b[..|minutes|] == minutes;
    assert s[..n - 5] == minutes;
    assert s[n - 4..n - 2] == a[|b|..|b| + 2];
    assert a[|b|..|b| + 2] == seconds;
  }

  /** A clock text is five characters longer than its minutes and starts with them. */
  lemma ClockTextHead(minutes: string, seconds: string, fraction: string)
    requires 1 <= |minutes| && |seconds| == 2 && |fraction| == 1
    ensures var s := ClockText(minutes, seconds, fraction);
            |s| == |minutes| + 5 && s[0] == minutes[0]
  {
  }

  lemma ParseWellFormed(s: string)
    requires 6 <= |s| && s[|s| - 5] == ':' && s[|s| - 2] == '.'
    requires AllDigits(s[..|s| - 5]) && AllDigits(s[|s| - 4..|s| - 2]) && AllDigits(s[|s| - 1..])
    ensures ParseClock(s)
         == Some(Clock(ParseNat(s[..|s| - 5]), ParseNat(s[|s| - 4..|s| - 2]), ParseNat(s[|s| - 1..])))
  {
  }

  lemma SingleDigit(n: int)
    requires 0 <= n < 10
    ensures IntToString(n) == [DigitChar(n)] && Pad2(IntToString(n)) == ['0', DigitChar(n)]
  {
  }

  lemma TwoDigits(n: int)
    requires 0 <= n < 100
    ensures Pad2(IntToString(n)) == [DigitChar(n / 10), DigitChar(n % 10)]
  {
    if n >= 10 {
      assert NatToString(n) == NatToString(n / 10) + [DigitChar(n % 10)];
    }
  }
}
